=== FILE: README.md ===
# Sequential core of the SmartMonkey Selenium sample suite, in Dafny

The repository is an end-to-end UI test suite built on selenium-webdriver.
Under its driver glue sits a small amount of sequential logic, and this
project models that logic and proves what it does:

- **Wildcard patterns** (`convertWildcardToRegExp`). The rewrite is per
  character. `*` becomes `.*` and `?` becomes `.?`. A dot is rewritten to the
  JavaScript literal `'\.'`, which is an identity escape for the one-character
  string `"."`. So dots are copied, not escaped, and a dot in the pattern
  matches any character except a line terminator.
- **Image comparison** (`compareImage`). The model covers the upward
  directory walk that finds the `imgcmp` tool, with path existence as an
  oracle. It also covers the verdict drawn from the similarity ratio.
- **Retrying assertions of `Page`**. These are `testElementContainsText`,
  `testSelectState` and `testCheckState`. Each is a step function over the
  successive answers of the page. It counts reads and 250 ms sleeps and
  models the exceptions of a missing element, a bad pattern and a failed
  assertion; the reads deliver strings (see "Left out").
  - In `testElementContainsText`, a comparison mode outside "Normal",
    "Wildcard" and "RegularExpression" leaves `ok` undefined. An undefined
    `ok` passes `ok !== negative` either way. The test suite passes
    "Contain" or no mode, so its text assertions cannot fail on content.
  - In `testCheckState`, a read that succeeds with the wrong state never
    consumes the retry budget.
  - In `testCheckState`, every exception still counts: exceptions separated
    by mismatching reads use up the budget just as consecutive ones do.
  - A non-positive `tryCount` is accepted. `testSelectState` and
    `testCheckState` then return without reading anything.
  - `negative` defaults to false and `tryCount` to 5 (`Polling.DefaultNegative`,
    `Polling.DefaultTryCount`).
- **`select`**. This is the loop that decides which `<option>`s to click. A
  click follows the W3C WebDriver Element Click command for an enabled
  option: it toggles the option in a multiple select, and otherwise selects
  only that option.
- **`pickValue`**. The model covers the trimming path and the regex path,
  with the match itself left to an opaque engine. The flags expression
  `ignoreCase ? 'i' : '' + multiLine ? 'm' : ''` parses so that it always
  yields `"i"` or `"m"`. A failed match throws a TypeError on `null.length`,
  so the function's own "RegExp not match" error is never reached.
- **`setup.js`**. Two folds over `process.argv` compute `ENV` and
  `defBrowser`. The last matching argument wins. Key and browser name match
  in any ASCII case. `safari` maps to Firefox.

The JavaScript regular-expression engine, the browser driver, the file
system and the `imgcmp` subprocess are parameters (`Js.RegexEngine`, read
streams and scripts, an existence oracle, a tool outcome). Sleeps are a
counter.

Files: `js.dfy` (shared JavaScript semantics), `wildcard.dfy`,
`image_compare.dfy`, `polling.dfy`, `select.dfy`, `pick_value.dfy`,
`setup.dfy`.

## Model

| member | source | states |
|---|---|---|
| WildcardRegExp.ConvertWildcardToRegExp | src/sys/utils.js:92-107 | the character loop returns the concatenation of the character images taken left to right, which is `ToRegExp` of the pattern |
| WildcardRegExp.ToRegExp | src/sys/utils.js:93-106 | output length is input length plus count of `*` plus count of `?`; a pattern with neither comes back unchanged |
| WildcardRegExp.ToRegExpAppend | src/sys/utils.js:93-106 | the conversion is a homomorphism: converting a concatenation concatenates the conversions |
| WildcardRegExp.ToRegExpLocal | src/sys/utils.js:94-105 | each character's image appears, in order, right after the images of the characters before it; a character other than `*` and `?` is copied verbatim |
| WildcardRegExp.ToRegExpIdentityIff | src/sys/utils.js:100-104 | the conversion returns its input exactly when the input has no `*` and no `?`, so dots are never escaped |
| WildcardRegExp.DotIsNotEscaped | src/sys/utils.js:100-101 | "a.b" converts to "a.b" |
| WildcardRegExp.StarAndQuestionExample | src/sys/utils.js:96-99 | "a*b?c" converts to "a.*b.?c" |
| ImageCompare.GetImgCmpAppPath | src/sys/utils.js:37-62 | visits the start directory and every ancestor up to the root; fails exactly when no level has `node_modules/.bin` or `.bin`; otherwise names `imgcmp` in the bin folder of the outermost level that has one, preferring `node_modules/.bin` at that level |
| ImageCompare.BinAt | src/sys/utils.js:41-49 | one level's bin folder: `node_modules/.bin` whenever that path exists, else `.bin` if it exists, and none exactly when neither exists; the walk over all levels is `GetImgCmpAppPath` |
| ImageCompare.ImageVerdict | src/sys/utils.js:72-79 | match iff (similarity >= threshold) differs from `negative`; a mismatch says "greater than" iff `negative`; "less than" is true of the ratio, while "greater than" means at least the threshold and is also reported at equality |
| ImageCompare.VerdictNegationComplements | src/sys/utils.js:72 | flipping `negative` flips every verdict |
| ImageCompare.VerdictMonotone | src/sys/utils.js:72 | a passing positive comparison keeps passing as the ratio grows; a passing negative one keeps passing as it shrinks |
| ImageCompare.CompareImage | src/sys/utils.js:64-85 | resolves iff the tool is found, its run succeeds and the verdict is a match; rejects with "tool not found" iff no level has a bin folder, with the tool's failure iff the tool is found and its run fails, and otherwise with the mismatch verdict `ImageVerdict` gives for the printed ratio |
| Js.IndexOf | src/sys/page.js:189 | `indexOf` is non-negative iff the text occurs, and it is the first occurrence |
| Polling.ModeOf | src/sys/page.js:187-199 | only the exact names "Normal", "Wildcard" and "RegularExpression" select a comparison; every other value is unrecognised |
| Polling.Evaluate | src/sys/page.js:186-199 | the value of `ok`: substring containment in "Normal" mode (see `NormalModeIsContainment`), undefined exactly for an unrecognised mode, and a pattern error only in the two regex modes; in "RegularExpression" mode an error exactly when the pattern does not compile, and otherwise the engine's `test` answer on the pattern; "Wildcard" mode is that on the converted pattern (`WildcardIsRegExpOfConversion`) |
| Polling.WildcardIsRegExpOfConversion | src/sys/page.js:192-197 | "Wildcard" mode evaluates exactly as "RegularExpression" mode on `convertWildcardToRegExp(text)`, pattern error included |
| Polling.ContainsTextFrom | src/sys/page.js:182-217 | every attempt but the last read a rejected text and slept once; the last attempt returned on an accepted text, propagated a missing element or a pattern error, or used the final unit of budget, after which it throws the error worded by `negative` with the last text read (undefined if none) |
| Polling.TestElementContainsText | src/sys/page.js:175-218 | the call starts at attempt 0: at most max(tryCount, 0) reads and sleeps, and with `tryCount <= 0` it throws the assertion error carrying undefined without reading; `ContainsTextReturnsAtFirstSuccess` and `ContainsTextExhausts` characterise the rest |
| Polling.ContainsTextReturnsAtFirstSuccess | src/sys/page.js:184-203 | returns at the first attempt k whose condition holds, after k sleeps and k+1 reads, with no further read |
| Polling.ContainsTextExhausts | src/sys/page.js:183-217 | if the condition never holds, exactly max(tryCount, 0) reads and as many sleeps, then the error worded by `negative` carrying the last text read (undefined when tryCount <= 0) |
| Polling.NormalModeIsContainment | src/sys/page.js:188-189 | in "Normal" mode `ok` is substring containment, so an empty text always matches |
| Polling.UnknownModeCannotFail | src/sys/page.js:186-202 | with mode "Contain" or no mode, `tryCount >= 1` and an element found on the first read, the call returns after exactly one read whatever the text and either value of `negative`; a missing element still throws |
| Polling.SuiteTextCheckReturnsAtFirstRead | src/sys/page.js:177-181 | the call with no mode and the default `negative` (false) and `tryCount` (5), as the suite makes it, returns on the first read that finds an element |
| Polling.ContainsTextTimeoutExample | src/sys/page.js:184-216 | text "foo", expected "bar", two tries: two reads, two sleeps, then the "not contain" error carrying "foo" |
| Polling.SelectFailure | src/sys/page.js:288-291 | an attempt throws nothing exactly when the select state read equals the expected values |
| Polling.SelectStateFrom | src/sys/page.js:285-300 | every failed attempt but the last consumed one unit of budget and slept; the call returns at the first matching read, rethrows the `tryCount`-th failure after `tryCount - 1` sleeps, or returns without reading when `tryCount <= 0`, and any attempt within the budget reads once more than it sleeps |
| Polling.TestSelectState | src/sys/page.js:285-300 | at most max(tryCount, 0) reads and fewer sleeps than max(tryCount, 1); with `tryCount <= 0` it returns without reading; `SelectStateReturnsAtFirstMatch` and `SelectStateRethrowsLastFailure` characterise the rest |
| Polling.SelectStateRethrowsLastFailure | src/sys/page.js:291-297 | when all `tryCount` attempts fail, the last failure is rethrown after `tryCount - 1` sleeps |
| Polling.SelectStateReturnsAtFirstMatch | src/sys/page.js:287-290 | returns at the first read equal to the expected values, after one sleep per earlier failure |
| Polling.CheckStateLoop | src/sys/page.js:378-412 | only exceptions consume budget and cause sleeps; the call returns at the first read equal to `state`, rethrows at the `tryCount`-th exception, or is still polling when the reads run out; a return after a read has met fewer than `tryCount` exceptions |
| Polling.TestCheckState | src/sys/page.js:378-412 | fewer sleeps than max(tryCount, 1); with `tryCount <= 0` it returns without reading; `CheckStateThrowsWhenBudgetSpent` and `MismatchesDoNotConsumeBudget` characterise the rest |
| Polling.MismatchesDoNotConsumeBudget | src/sys/page.js:400-402 | successful reads that differ from `state` never sleep and never end the loop |
| Polling.CheckStateThrowsOnlyAtBudget | src/sys/page.js:403-409 | a call that throws has met exactly `tryCount` exceptions and slept `tryCount - 1` times |
| Polling.CheckStateRethrows | src/sys/page.js:403-409 | `tryCount` consecutive exceptions end the call with the last one after `tryCount - 1` sleeps |
| Polling.CheckStateThrowsWhenBudgetSpent | src/sys/page.js:380-411 | the read that brings the exceptions to `tryCount`, with no matching read before it, ends the call with that exception after `tryCount - 1` sleeps, whatever mismatches came between |
| Polling.CheckStateMixedExample | src/sys/page.js:380-411 | with two tries, exception, mismatch, exception throws at the third read after one sleep, although a matching read follows |
| SelectOptions.SelectByText | src/sys/page.js:231-234 | clicks exactly the options whose text equals the string, whatever their state; a multiple select toggles them; otherwise the last of them is the only one selected, and with none nothing changes |
| SelectOptions.SelectByTexts | src/sys/page.js:235-246 | clicks an option exactly when membership of its text in the array differs from its state; in a multiple select the final selection is exactly the requested options |
| SelectOptions.Select | src/sys/page.js:225-248 | a string clicks every option of that text; an array leaves a multiple select with exactly the listed options selected |
| PickValue.TrimStart | src/sys/page.js:318-320 | the result is a suffix, every dropped character is whitespace, and it does not start with whitespace |
| PickValue.TrimEnd | src/sys/page.js:321-323 | the result is a prefix, every dropped character is whitespace, and it does not end with whitespace |
| PickValue.PickText | src/sys/page.js:317-325 | the result is a contiguous part of the element's text, and the text itself when neither flag is set |
| PickValue.PickTextTrimsOnlyFlaggedEnds | src/sys/page.js:318-323 | leading whitespace goes only with `trimLeft`, trailing only with `trimRight`, and a set flag leaves no whitespace at its end |
| PickValue.PickTextDropsOnlyWhitespace | src/sys/page.js:318-323 | the result sits at some offset of the text; every character before it is whitespace and `trimLeft` is set, every character after it is whitespace and `trimRight` is set |
| PickValue.PickTextIdempotent | src/sys/page.js:317-325 | picking the picked text again with the same flags changes nothing |
| PickValue.RegExpFlags | src/sys/page.js:310 | the flags are "i" or "m", and "i" exactly when `ignoreCase` is set; `FlagsIgnoreMultiLine` adds that `multiLine` is never consulted |
| PickValue.FlagsIgnoreMultiLine | src/sys/page.js:310 | the flags are "i" when `ignoreCase` is set and "m" otherwise, whatever `multiLine` is |
| PickValue.PickValue | src/sys/page.js:307-326 | a missing element fails; the non-regex path returns the trimmed text; a failed match throws a TypeError; index 0 picks the whole match, index k from 1 picks capture group k (undefined if it did not take part), and an index outside the array gives undefined; "RegExp not match" is never thrown |
| Setup.MatchEnvArg | src/setup.js:21 | a match captures the non-empty suffix after the key, case preserved |
| Setup.EnvArgKeepsCase | src/setup.js:21-23 | the key in any ASCII case followed by word characters yields those characters exactly as written |
| Setup.MatchBrowserArg | src/setup.js:28 | a match captures the whole remainder after the key |
| Setup.BrowserArgCaseInsensitive | src/setup.js:28-43 | key and name match in any ASCII case; only the four names match; chrome maps to Chrome, edge to Edge, firefox and safari to Firefox |
| Setup.BrowserOf | src/setup.js:30-42 | the lower-cased name selects Chrome exactly for "chrome", Edge exactly for "edge", and Firefox for everything else |
| Setup.AnchoredExamples | src/setup.js:21-28 | "chromium", "opera" and an `ENV` value with a `-` do not match |
| Setup.EnvUnchangedWithoutMatch | src/setup.js:20-25 | with no matching argument `ENV` is unchanged |
| Setup.EnvLastMatchWins | src/setup.js:20-25 | the last `--ENV=` argument decides `ENV` |
| Setup.EnvFold | src/setup.js:20-25 | `ENV` after the loop is its prior value or the capture of one of the arguments; `EnvLastMatchWins` says which |
| Setup.BrowserUnchangedWithoutMatch | src/setup.js:27-45 | with no matching argument the browser stays as it was |
| Setup.BrowserLastMatchWins | src/setup.js:27-45 | the last `--defBrowser=` argument decides the browser |
| Setup.BrowserFold | src/setup.js:27-45 | the browser after the loop is its prior value or the one some argument selects; `BrowserLastMatchWins` says which |
| Setup.SetupLastArgumentWins | src/setup.js:18-45 | after the script, `ENV` is the last match's suffix or unchanged; `defBrowser` is the last match's browser, or firefox when there is none, whatever it was before |
| Setup.SetupEnvironment | src/setup.js:18-45 | `defBrowser` is always one of the three driver names and `ENV` is its prior value or some argument's capture; with no arguments `defBrowser` is firefox and `ENV` unchanged; `SetupLastArgumentWins` gives the full result |

## Left out

- Driver plumbing in `Page` passes straight through to selenium-webdriver and the browser, so it is left out. This covers `create`, `initialize`, `close`, `goto`, `checkElementExists`, `focusElement`, `type`, `clickElement`, `setCheckState`, `setFilesToUpload`, `takeElementScreenshot`, the dialog methods and the window switching.
- The bodies of `getElementContent`, `getSelectState` and the `elm.checked` script run in the browser. The model treats each as one read that yields a value or throws because no element matches.
- `testAddress` and `matchSimpleUrl` depend on the WHATWG URL parser, so they are left out. `testAddress`'s retry path also calls an undeclared `page` (src/sys/page.js:479).
- `randomString` depends on `Math.random`. `requireJSON` and screenshot file names depend on the file system and the clock. All three are left out.
- Regular-expression matching stays behind `Js.RegexEngine`: whether a source compiles, `test` and `exec`. No regex engine is modelled.
- The `imgcmp` subprocess and the `parseInt` of its output are left out. A run is either a failing exit or an integer ratio, so a NaN ratio is not modelled.
- A read of `getElementContent` yields a string. The source returns `elm.value` whenever it is defined (src/sys/page.js:158-159), which can be a number. `indexOf`, `trimLeft` or `trimRight` would then throw a TypeError, and that path is not modelled.
- Real time, the 250 ms duration, async scheduling and the driver's 30 s implicit wait are left out. Sleeps are counted only.
- Loading dotenv and other `process.env` side effects beyond the two variables are left out.
- src/test/index.js is a recorded script of driver calls and is not part of this model. Its modes "Contain" and none, and its call with no mode at line 124, appear only in `Polling.UnknownModeCannotFail` and `Polling.SuiteTextCheckReturnsAtFirstRead`.
- ImageCompare.GetImgCmpAppPath: the `dir.length` loop test is taken as always true, since an absolute directory's text is never empty. Paths are sequences of names below a single root.
- SelectOptions.SelectByText: options are taken as enabled. The Element Click command leaves a disabled option unchanged, and `Click` does not model that.
- SelectOptions.SelectByTexts: options are taken as enabled, as for `SelectByText`, so "exactly the requested options" does not hold for a disabled option.
- SelectOptions.SelectByTexts: for a select without `multiple`, the clicks are computed but the final selection is not characterised, because later reads see earlier single-select clicks.
- SelectOptions.Select: the same gap as `SelectByTexts` for an array value on a select without `multiple`.
- PickValue.PickValue: `multiLine` is modelled only as undefined or a boolean, `matchIndex` only as an integer, and `options.regExp` only as a string.
- Polling.CheckStateLoop: the loop can spin forever on successful mismatches, so it runs over a finite script of reads. It reports "still polling" when the script runs out.

=== FILE: image_compare.dfy ===
/** `compareImage`: locating the `imgcmp` tool by walking up from the module's
    directory, and the verdict drawn from the similarity the tool reports.

    Paths are sequences of directory names below the root; the root is the
    empty sequence, whose parent is itself, as `path.dirname('/')` is '/'.
    Whether a path exists (`fs.existsSync`, true for files as well as
    folders) is an oracle. The subprocess and the parsing of
    its output are outside the model: the run's outcome is an input. */
module ImageCompare {
  import opened Js

  type Path = seq<string>

  /** `path.dirname`. */
  function Dirname(p: Path): (d: Path)
  {
    if |p| == 0 then p else p[..|p| - 1]
  }

  /** The bin folder found at one level: `node_modules/.bin` when it exists,
      otherwise `.bin` when that exists. */
  function BinAt(pathExists: Path -> bool, dir: Path): (b: Option<Path>)
    ensures b.None? <==> !pathExists(dir + ["node_modules", ".bin"]) && !pathExists(dir + [".bin"])
    ensures b.Some? ==> pathExists(b.value)
    ensures pathExists(dir + ["node_modules", ".bin"]) ==> b == Some(dir + ["node_modules", ".bin"])
    ensures !pathExists(dir + ["node_modules", ".bin"]) && pathExists(dir + [".bin"]) ==> b == Some(dir + [".bin"])
  {
    if pathExists(dir + ["node_modules", ".bin"]) then Some(dir + ["node_modules", ".bin"])
    else if pathExists(dir + [".bin"]) then Some(dir + [".bin"])
    else None
  }

  /** The level `start[..j]` has a bin folder and no level nearer the root has. */
  predicate OutermostHit(pathExists: Path -> bool, start: Path, j: int)
  {
    && 0 <= j <= |start|
    && BinAt(pathExists, start[..j]).Some?
    && forall i :: 0 <= i < j ==> BinAt(pathExists, start[..i]).None?
  }

  datatype Lookup = Found(tool: Path) | ToolNotFound

  /** `getImgCmpAppPath`: visits the start directory and every ancestor up to
      the root, keeping the last (outermost) hit. It fails exactly when no
      level has a bin folder, and otherwise names `imgcmp` inside the bin
      folder of the outermost level that has one. */
  method GetImgCmpAppPath(pathExists: Path -> bool, start: Path) returns (r: Lookup)
    ensures r.ToolNotFound? <==> forall j :: 0 <= j <= |start| ==> BinAt(pathExists, start[..j]).None?
    ensures r.Found? ==> exists j :: OutermostHit(pathExists, start, j)
                                     && r.tool == BinAt(pathExists, start[..j]).value + ["imgcmp"]
  {
    var result: Option<Path> := None;
    var dir := start;
    // The source also tests `dir.length`; an absolute path's text is never
    // empty, so that test never stops the walk.
    while true
      invariant |dir| <= |start| && dir == start[..|dir|]
      invariant result.None? ==> forall j :: |dir| < j <= |start| ==> BinAt(pathExists, start[..j]).None?
      invariant result.Some? ==> exists j :: |dir| < j <= |start| && result == BinAt(pathExists, start[..j])
                                   && forall i :: |dir| < i < j ==> BinAt(pathExists, start[..i]).None?
      decreases |dir|
    {
      var bin := BinAt(pathExists, dir);
      if bin.Some? {
        result := bin;
      }
      var parentDir := Dirname(dir);
      if parentDir != dir {
        assert start[..|dir| - 1] == parentDir;
        dir := parentDir;
      } else {
        assert |dir| == 0;
        break;
      }
    }
    assert start[..0] == dir;
    if result.Some? {
      r := Found(result.value + ["imgcmp"]);
    } else {
      r := ToolNotFound;
    }
  }

  /** Which way the failure message words the mismatch. */
  datatype Direction = GreaterThan | LessThan

  datatype Verdict = Match | Mismatch(similarity: int, threshold: int, direction: Direction)

  /** The verdict on a similarity ratio. The images match when the ratio
      reaching the threshold disagrees with `negative`. A mismatch reports
      "greater than" when `negative` is set and "less than" otherwise. The
      "less than" wording is true of the ratio; the "greater than" one means
      at least the threshold, so at equality it is reported although the
      ratio is not greater. */
  function ImageVerdict(similarity: int, threshold: int, negative: bool): (v: Verdict)
    ensures v.Match? <==> (similarity >= threshold) != negative
    ensures v.Mismatch? ==> v.similarity == similarity && v.threshold == threshold
    ensures v.Mismatch? ==> (v.direction == GreaterThan <==> negative)
    ensures v.Mismatch? && v.direction == GreaterThan ==> similarity >= threshold
    ensures v.Mismatch? && v.direction == LessThan ==> similarity < threshold
  {
    if (similarity >= threshold) != negative then Match
    else if negative then Mismatch(similarity, threshold, GreaterThan)
    else Mismatch(similarity, threshold, LessThan)
  }

  /** Setting `negative` turns every match into a mismatch and back. */
  lemma VerdictNegationComplements(similarity: int, threshold: int)
    ensures ImageVerdict(similarity, threshold, true).Match?
        <==> !ImageVerdict(similarity, threshold, false).Match?
  {
  }

  /** A positive comparison that passes keeps passing as the ratio grows,
      and a negative one keeps passing as it shrinks. */
  lemma VerdictMonotone(s1: int, s2: int, threshold: int)
    requires s1 <= s2
    ensures ImageVerdict(s1, threshold, false).Match? ==> ImageVerdict(s2, threshold, false).Match?
    ensures ImageVerdict(s2, threshold, true).Match? ==> ImageVerdict(s1, threshold, true).Match?
  {
  }

  /** What running the tool yields: a failure exit, or the similarity ratio
      it printed. */
  datatype ToolRun = ExitFailure | Printed(similarity: int)

  datatype Rejection = ToolMissing | ToolFailed | ImageNotMatch(verdict: Verdict)

  datatype Comparison = Resolved | Rejected(reason: Rejection)

  /** `compareImage`: resolves exactly when the tool is found, its run
      succeeds, and the verdict on the ratio it printed is a match. A missing
      tool, a failing run and a mismatch are told apart, and a mismatch
      carries the verdict with its wording. */
  method CompareImage(pathExists: Path -> bool, start: Path, run: ToolRun, threshold: int, negative: bool)
    returns (c: Comparison)
    ensures c.Resolved? <==>
              && (exists j :: 0 <= j <= |start| && BinAt(pathExists, start[..j]).Some?)
              && run.Printed?
              && (run.similarity >= threshold) != negative
    ensures c == Rejected(ToolMissing) <==> forall j :: 0 <= j <= |start| ==> BinAt(pathExists, start[..j]).None?
    ensures c == Rejected(ToolFailed) <==>
              (exists j :: 0 <= j <= |start| && BinAt(pathExists, start[..j]).Some?) && run.ExitFailure?
    ensures c.Rejected? && c.reason.ImageNotMatch? ==>
              && run.Printed? && c.reason.verdict.Mismatch?
              && c.reason.verdict == ImageVerdict(run.similarity, threshold, negative)
  {
    var lookup := GetImgCmpAppPath(pathExists, start);
    if lookup.ToolNotFound? {
      return Rejected(ToolMissing);
    }
    if run.ExitFailure? {
      return Rejected(ToolFailed);
    }
    var v := ImageVerdict(run.similarity, threshold, negative);
    if v.Match? {
      c := Resolved;
    } else {
      c := Rejected(ImageNotMatch(v));
    }
  }
}

=== FILE: js.dfy ===
/** Pieces of JavaScript semantics that the modelled code relies on:
    `undefined`-or-value, ASCII case folding as a non-unicode `/i` regex
    applies it, the `\w` class, the whitespace set of `trimLeft`/`trimRight`,
    `String.prototype.indexOf`, and an opaque regular-expression engine. */
module Js {

  /** A value that may be `undefined` (or `null`, where the source says so). */
  datatype Option<+T> = None | Some(value: T)

  /** Lower-cases ASCII letters and leaves every other character alone. */
  function AsciiLower(c: char): (l: char)
  {
    if 'A' <= c <= 'Z' then (c as int + 32) as char else c
  }

  /** Equality up to ASCII case, which is how a regex with the `i` flag and
      without the `u` flag compares ASCII pattern letters. */
  predicate EqualsIgnoreCase(a: string, b: string)
  {
    |a| == |b| && forall i :: 0 <= i < |a| ==> AsciiLower(a[i]) == AsciiLower(b[i])
  }

  /** `toLowerCase` restricted to ASCII input. */
  function LowerAscii(s: string): (r: string)
    ensures |r| == |s|
    ensures forall i :: 0 <= i < |s| ==> r[i] == AsciiLower(s[i])
  {
    seq(|s|, i requires 0 <= i < |s| => AsciiLower(s[i]))
  }

  /** The `\w` character class without the `u` flag: `[A-Za-z0-9_]`. */
  predicate IsWordChar(c: char)
  {
    ('a' <= c <= 'z') || ('A' <= c <= 'Z') || ('0' <= c <= '9') || c == '_'
  }

  /** The characters `trimLeft` and `trimRight` remove: ECMAScript WhiteSpace
      (including the space separators of Unicode category Zs) and
      LineTerminator. */
  predicate IsJsWhitespace(c: char)
  {
    || c == '\t' || c == '\n' || c == '\U{000B}' || c == '\U{000C}' || c == '\r'
    || c == ' ' || c == '\U{00A0}' || c == '\U{1680}'
    || ('\U{2000}' <= c <= '\U{200A}')
    || c == '\U{2028}' || c == '\U{2029}' || c == '\U{202F}' || c == '\U{205F}'
    || c == '\U{3000}' || c == '\U{FEFF}'
  }

  /** `sub` occurs in `s` starting at position `k`. */
  predicate OccursAt(s: string, sub: string, k: int)
  {
    0 <= k && k + |sub| <= |s| && s[k..k + |sub|] == sub
  }

  /** `sub` is a contiguous part of `s`. */
  predicate IsSubstring(sub: string, s: string)
  {
    exists k :: 0 <= k <= |s| && OccursAt(s, sub, k)
  }

  /** `s.indexOf(sub)` searching from position `from`: the first occurrence at
      or after `from`, or -1. */
  function IndexOfFrom(s: string, sub: string, from: nat): (r: int)
    requires from <= |s| + 1
    ensures r == -1 || (from <= r && OccursAt(s, sub, r))
    ensures forall k :: from <= k && (r == -1 || k < r) ==> !OccursAt(s, sub, k)
    decreases |s| + 1 - from
  {
    if from + |sub| > |s| then -1
    else if s[from..from + |sub|] == sub then from
    else IndexOfFrom(s, sub, from + 1)
  }

  /** `s.indexOf(sub)`. */
  function IndexOf(s: string, sub: string): (r: int)
    ensures r >= 0 <==> IsSubstring(sub, s)
    ensures r >= 0 ==> OccursAt(s, sub, r) && forall k :: 0 <= k < r ==> !OccursAt(s, sub, k)
  {
    IndexOfFrom(s, sub, 0)
  }

  /** What one `getElementContent` call yields: the element's value or inner
      text, or an exception because no element matches the selector. */
  datatype Read = Content(text: string) | Missing

  /** One match array as returned by `RegExp.prototype.exec`: the whole match
      followed by the capture groups, each of which may be `undefined`. */
  datatype MatchArray = MatchArray(whole: string, groups: seq<Option<string>>)
  {
    /** The array as JavaScript sees it; index 0 is the whole match. */
    function Elements(): (r: seq<Option<string>>)
      ensures |r| == 1 + |groups| && r[0] == Some(whole)
      ensures forall k :: 0 <= k < |groups| ==> r[k + 1] == groups[k]
    {
      [Some(whole)] + groups
    }
  }

  /** The JavaScript regular-expression engine, left opaque: which pattern
      sources compile, what `test` answers, and what `exec` returns (`None`
      is `null`). */
  datatype RegexEngine = RegexEngine(
    compiles: string -> bool,
    test: (string, string) -> bool,
    exec: (string, string, string) -> Option<MatchArray>)
}

=== FILE: pick_value.dfy ===
/** `Page.pickValue`: reading an element's text and either trimming it or
    extracting one element of a regular-expression match. The match itself
    is left to the opaque engine. */
module PickValue {
  import opened Js

  /** `trimLeft`: drops the leading whitespace and nothing else. */
  function TrimStart(s: string): (r: string)
    ensures |r| <= |s| && r == s[|s| - |r|..]
    ensures forall i :: 0 <= i < |s| - |r| ==> IsJsWhitespace(s[i])
    ensures |r| > 0 ==> !IsJsWhitespace(r[0])
  {
    if |s| > 0 && IsJsWhitespace(s[0]) then TrimStart(s[1..]) else s
  }

  /** `trimRight`: drops the trailing whitespace and nothing else. */
  function TrimEnd(s: string): (r: string)
    ensures |r| <= |s| && r == s[..|r|]
    ensures forall i :: |r| <= i < |s| ==> IsJsWhitespace(s[i])
    ensures |r| > 0 ==> !IsJsWhitespace(r[|r| - 1])
  {
    if |s| > 0 && IsJsWhitespace(s[|s| - 1]) then TrimEnd(s[..|s| - 1]) else s
  }

  /** The text `pickValue` returns when the data type is not "regExp": a
      contiguous part of the element's text, the whole text when neither
      flag is set. */
  function PickText(text: string, trimLeft: bool, trimRight: bool): (r: string)
    ensures IsSubstring(r, text)
    ensures !trimLeft && !trimRight ==> r == text
  {
    var afterLeft := if trimLeft then TrimStart(text) else text;
    var r := if trimRight then TrimEnd(afterLeft) else afterLeft;
    var a := |text| - |afterLeft|;
    PrefixOfSuffix(text, a, |r|);
    assert OccursAt(text, r, a);
    r
  }

  /** Each flag governs one end: leading whitespace goes only with
      `trimLeft`, trailing whitespace only with `trimRight`, and a flag that
      is set leaves no whitespace at its end. */
  lemma PickTextTrimsOnlyFlaggedEnds(text: string, trimLeft: bool, trimRight: bool)
    ensures var r := PickText(text, trimLeft, trimRight);
      && (!trimLeft ==> r == text[..|r|])
      && (!trimRight ==> r == text[|text| - |r|..])
      && (trimLeft && |r| > 0 ==> !IsJsWhitespace(r[0]))
      && (trimRight && |r| > 0 ==> !IsJsWhitespace(r[|r| - 1]))
  {
    var r := PickText(text, trimLeft, trimRight);
    if trimLeft && trimRight {
      var t := TrimStart(text);
      assert r == TrimEnd(t);
      assert |r| > 0 ==> r[0] == t[0];
    }
  }

  /** `r` is the slice of `text` at offset `a`, everything before it is
      whitespace that `trimLeft` may drop, and everything after it is
      whitespace that `trimRight` may drop. */
  predicate TrimmedAt(text: string, r: string, a: int, trimLeft: bool, trimRight: bool)
  {
    && 0 <= a && a + |r| <= |text| && text[a..a + |r|] == r
    && (forall i :: 0 <= i < a ==> trimLeft && IsJsWhitespace(text[i]))
    && (forall i :: a + |r| <= i < |text| ==> trimRight && IsJsWhitespace(text[i]))
  }

  /** Trimming drops whitespace and nothing else, and only at an end whose
      flag is set. */
  lemma PickTextDropsOnlyWhitespace(text: string, trimLeft: bool, trimRight: bool)
    ensures exists a :: TrimmedAt(text, PickText(text, trimLeft, trimRight), a, trimLeft, trimRight)
  {
    var afterLeft := if trimLeft then TrimStart(text) else text;
    var r := if trimRight then TrimEnd(afterLeft) else afterLeft;
    assert r == PickText(text, trimLeft, trimRight);
    var a := |text| - |afterLeft|;
    assert afterLeft == text[a..];
    assert forall i :: 0 <= i < a ==> trimLeft && IsJsWhitespace(text[i]);
    assert !trimRight ==> a + |r| == |text|;
    PrefixOfSuffix(text, a, |r|);
    ShiftedTail(text, afterLeft, a, |r|, IsJsWhitespace);
    assert TrimmedAt(text, r, a, trimLeft, trimRight);
  }

  /** A property of the tail of a suffix carries over to the text. */
  lemma ShiftedTail(text: string, t: string, a: nat, n: nat, p: char -> bool)
    requires a <= |text| && t == text[a..] && n <= |t|
    requires forall j :: n <= j < |t| ==> p(t[j])
    ensures forall i :: a + n <= i < |text| ==> p(text[i])
  {
    forall i | a + n <= i < |text|
      ensures p(text[i])
    {
      var j := i - a;
      assert text[i] == t[j];
    }
  }

  /** A prefix of a suffix is a slice. */
  lemma PrefixOfSuffix(s: string, a: nat, n: nat)
    requires a + n <= |s|
    ensures s[a..][..n] == s[a..a + n]
  {
  }

  /** A text already starting with a non-whitespace character (or empty) is
      left alone by `trimLeft`, and likewise for `trimRight` at the end. */
  lemma TrimFixedPoints(s: string)
    ensures (|s| == 0 || !IsJsWhitespace(s[0])) ==> TrimStart(s) == s
    ensures (|s| == 0 || !IsJsWhitespace(s[|s| - 1])) ==> TrimEnd(s) == s
  {
  }

  /** Picking again with the same flags changes nothing. */
  lemma PickTextIdempotent(text: string, trimLeft: bool, trimRight: bool)
    ensures PickText(PickText(text, trimLeft, trimRight), trimLeft, trimRight)
            == PickText(text, trimLeft, trimRight)
  {
    var r := PickText(text, trimLeft, trimRight);
    TrimFixedPoints(r);
    if trimLeft && trimRight {
      TrimFixedPoints(TrimStart(r));
    }
  }

  /** `'' + value` for the values `options.multiLine` takes (`None` is
      `undefined`). */
  function JsString(v: Option<bool>): (s: string)
  {
    match v
    case None => "undefined"
    case Some(true) => "true"
    case Some(false) => "false"
  }

  /** The flags expression `ignoreCase ? 'i' : '' + multiLine ? 'm' : ''`.
      Concatenation binds tighter than the conditional, so the inner test is
      on the string `'' + multiLine`, which is never empty. */
  function RegExpFlags(ignoreCase: bool, multiLine: Option<bool>): (f: string)
    ensures f == "i" || f == "m"
    ensures f == "i" <==> ignoreCase
  {
    if ignoreCase then "i"
    else if |"" + JsString(multiLine)| > 0 then "m"
    else ""
  }

  /** The flags collapse to "i" when `ignoreCase` is set and "m" otherwise:
      `multiLine` is never consulted, and "im" is never produced. */
  lemma FlagsIgnoreMultiLine(ignoreCase: bool, multiLine: Option<bool>)
    ensures RegExpFlags(ignoreCase, multiLine) == (if ignoreCase then "i" else "m")
    ensures RegExpFlags(ignoreCase, multiLine) == RegExpFlags(ignoreCase, None)
  {
  }

  /** The fields of `options` that `pickValue` reads. */
  datatype PickOptions = PickOptions(
    dataType: Option<string>,
    regExp: string,
    ignoreCase: bool,
    multiLine: Option<bool>,
    matchIndex: int,
    trimLeft: bool,
    trimRight: bool)

  datatype PickError =
    | ElementNotFound
    | PatternSyntaxError(pattern: string)
      /** `exec` returned `null` and reading its `length` threw a TypeError. */
    | NullMatch
      /** The source's own "RegExp not match" error. */
    | RegExpNotMatch

  /** What `pickValue` resolves to (`None` is `undefined`) or rejects with. */
  datatype Picked = Value(value: Option<string>) | PickFailed(error: PickError)

  /** `pickValue(selector, options)` given the element read. A missing
      element fails first; the non-regex path returns the trimmed text; the
      regex path fails with a TypeError when nothing matches and otherwise
      returns the element of the match array at `matchIndex`, `undefined`
      outside the array. Its own "RegExp not match" error is unreachable,
      because a match array always holds the whole match. */
  function PickValue(read: Read, opts: PickOptions, re: RegexEngine): (p: Picked)
    ensures p == PickFailed(ElementNotFound) <==> read.Missing?
    ensures p != PickFailed(RegExpNotMatch)
    ensures read.Content? && opts.dataType != Some("regExp") ==>
              p == Value(Some(PickText(read.text, opts.trimLeft, opts.trimRight)))
    ensures read.Content? && opts.dataType == Some("regExp") ==>
              && (p == PickFailed(NullMatch) <==>
                    re.compiles(opts.regExp) && re.exec(opts.regExp, RegExpFlags(opts.ignoreCase, opts.multiLine), read.text).None?)
              && (p.PickFailed? && p.error.PatternSyntaxError? <==> !re.compiles(opts.regExp))
    ensures read.Content? && opts.dataType == Some("regExp") && re.compiles(opts.regExp) ==>
              var m := re.exec(opts.regExp, RegExpFlags(opts.ignoreCase, opts.multiLine), read.text);
              m.Some? ==>
                && (opts.matchIndex == 0 ==> p == Value(Some(m.value.whole)))
                && (1 <= opts.matchIndex <= |m.value.groups| ==> p == Value(m.value.groups[opts.matchIndex - 1]))
                && (!(0 <= opts.matchIndex <= |m.value.groups|) ==> p == Value(None))
  {
    match read
    case Missing => PickFailed(ElementNotFound)
    case Content(text) =>
      if opts.dataType == Some("regExp") then
        var flags := RegExpFlags(opts.ignoreCase, opts.multiLine);
        if !re.compiles(opts.regExp) then PickFailed(PatternSyntaxError(opts.regExp))
        else match re.exec(opts.regExp, flags, text)
          case None => PickFailed(NullMatch)
          case Some(m) =>
            var elements := m.Elements();
            if |elements| > 0 then
              Value(if 0 <= opts.matchIndex < |elements| then elements[opts.matchIndex] else None)
            else PickFailed(RegExpNotMatch)
      else
        Value(Some(PickText(text, opts.trimLeft, opts.trimRight)))
  }
}

=== FILE: polling.dfy ===
/** The retrying assertions of `Page`: `testElementContainsText`,
    `testSelectState` and `testCheckState`.

    Each loop is a step function over what the page answers on successive
    reads. Sleeps are counted, not timed (each is 250 ms in the source). The
    two loops whose every failed attempt consumes budget take an unbounded
    stream `observe(i)`, the answer to the i-th read. `testCheckState` can
    spin forever without consuming budget, so it takes a finite script and
    reports `StillPolling` when the script runs out with the loop still
    going. */
module Polling {
  import opened Js
  import WildcardRegExp

  /** Why an assertion call ended in an exception. */
  datatype Failure =
    | ElementNotFound
      /** `new RegExp` rejected the pattern source. */
    | PatternSyntaxError(pattern: string)
      /** The text assertion's own error; `negative` selects the wording
          "contains" (when set) or "not contain", and `last` is the last text
          read (`undefined` when nothing was read). */
    | TextAssertion(negative: bool, text: string, last: Option<string>)
      /** `expect(actual).toEqual(expected)` failed; `None` is `null`. */
    | SelectStateMismatch(actual: Option<seq<string>>)

  datatype Outcome = Returned | Threw(failure: Failure) | StillPolling

  /** How a call ended, how many attempts (each one read of the page) it made and how many
      times it slept. */
  datatype Run = Run(outcome: Outcome, attempts: nat, sleeps: nat)

  // ---------------------------------------------------------------------
  // testElementContainsText
  // ---------------------------------------------------------------------

  /** The cases of the `switch` on `comparisionMode`; every other value,
      `undefined` included, matches no case. */
  datatype Mode = Normal | Wildcard | RegularExpression | Unrecognised

  /** The mode a `comparisionMode` argument selects (`None` is `undefined`);
      the `switch` compares with `===`, so the names are case-sensitive. */
  function ModeOf(name: Option<string>): (m: Mode)
    ensures m == Normal <==> name == Some("Normal")
    ensures m == Wildcard <==> name == Some("Wildcard")
    ensures m == RegularExpression <==> name == Some("RegularExpression")
  {
    if name == Some("Normal") then Normal
    else if name == Some("Wildcard") then Wildcard
    else if name == Some("RegularExpression") then RegularExpression
    else Unrecognised
  }

  /** The value of `ok` after the `switch`: a boolean, `undefined`, or an
      exception from `new RegExp`. */
  datatype Evaluation = Decided(ok: bool) | Undefined | BadPattern(pattern: string)

  /** The fixed arguments of one `testElementContainsText` call. */
  datatype TextCheck = TextCheck(re: RegexEngine, mode: Mode, text: string, negative: bool)

  function Evaluate(c: TextCheck, observed: string): (e: Evaluation)
    ensures c.mode == Normal ==> e == Decided(IsSubstring(c.text, observed))
    ensures e == Undefined <==> c.mode == Unrecognised
    ensures e.BadPattern? ==> c.mode == Wildcard || c.mode == RegularExpression
    ensures c.mode == RegularExpression ==> (e.BadPattern? <==> !c.re.compiles(c.text))
    ensures c.mode == RegularExpression && c.re.compiles(c.text) ==> e == Decided(c.re.test(c.text, observed))
  {
    match c.mode
    case Normal => Decided(IndexOf(observed, c.text) >= 0)
    case Wildcard =>
      var p := WildcardRegExp.ToRegExp(c.text);
      if c.re.compiles(p) then Decided(c.re.test(p, observed)) else BadPattern(p)
    case RegularExpression =>
      if c.re.compiles(c.text) then Decided(c.re.test(c.text, observed)) else BadPattern(c.text)
    case Unrecognised => Undefined
  }

  /** The attempt that reads `r` returns: `ok !== negative` holds, which an
      `undefined` `ok` always satisfies. */
  predicate Accepts(c: TextCheck, r: Read)
  {
    r.Content? && match Evaluate(c, r.text)
      case Decided(ok) => ok != c.negative
      case Undefined => true
      case BadPattern(_) => false
  }

  /** The attempt that reads `r` sleeps and tries again. */
  predicate Rejects(c: TextCheck, r: Read)
  {
    r.Content? && Evaluate(c, r.text) == Decided(c.negative)
  }

  /** The text a read carries, `undefined` for a read that threw. */
  function TextOf(r: Read): (t: Option<string>)
  {
    match r
    case Content(t) => Some(t)
    case Missing => None
  }

  function Max(a: int, b: int): (m: int)
  {
    if a < b then b else a
  }

  /** The loop of `testElementContainsText` from the attempt numbered
      `errorCount`, with `last` the text of the previous read. Every attempt
      before the last one read a text that did not satisfy the condition and
      slept once; the last attempt returned, propagated the read's or the
      pattern's exception, or was the `tryCount`-th, after which the
      assertion error carrying the last text is thrown. */
  function ContainsTextFrom(c: TextCheck, observe: nat -> Read, tryCount: int,
                            errorCount: nat, last: Option<string>): (r: Run)
    ensures errorCount <= r.sleeps <= Max(tryCount, errorCount)
    ensures forall i :: errorCount <= i < r.sleeps ==> Rejects(c, observe(i))
    ensures r.outcome.Returned? ==> r.attempts == r.sleeps + 1 && Accepts(c, observe(r.sleeps))
    ensures r.outcome == Threw(ElementNotFound) ==> r.attempts == r.sleeps + 1 && observe(r.sleeps).Missing?
    ensures r.outcome.Threw? && r.outcome.failure.PatternSyntaxError? ==>
              && r.attempts == r.sleeps + 1 && observe(r.sleeps).Content?
              && Evaluate(c, observe(r.sleeps).text) == BadPattern(r.outcome.failure.pattern)
    ensures r.outcome.Threw? && r.outcome.failure.TextAssertion? ==>
              && r.attempts == r.sleeps == Max(tryCount, errorCount)
              && r.outcome.failure.negative == c.negative && r.outcome.failure.text == c.text
              && r.outcome.failure.last == (if r.attempts == errorCount then last else TextOf(observe(r.attempts - 1)))
    ensures !(r.outcome.Threw? && r.outcome.failure.TextAssertion?) ==> r.sleeps < tryCount
    ensures !r.outcome.StillPolling? && !(r.outcome.Threw? && r.outcome.failure.SelectStateMismatch?)
    decreases tryCount - errorCount
  {
    if errorCount >= tryCount then
      Run(Threw(TextAssertion(c.negative, c.text, last)), errorCount, errorCount)
    else match observe(errorCount)
      case Missing => Run(Threw(ElementNotFound), errorCount + 1, errorCount)
      case Content(t) =>
        match Evaluate(c, t)
        case BadPattern(p) => Run(Threw(PatternSyntaxError(p)), errorCount + 1, errorCount)
        case Undefined => Run(Returned, errorCount + 1, errorCount)
        case Decided(ok) =>
          if ok != c.negative then Run(Returned, errorCount + 1, errorCount)
          else
            assert Rejects(c, observe(errorCount));
            ContainsTextFrom(c, observe, tryCount, errorCount + 1, Some(t))
  }

  /** `testElementContainsText(selector, text, mode, negative, tryCount)`. */
  function TestElementContainsText(c: TextCheck, observe: nat -> Read, tryCount: int): (r: Run)
    ensures r.sleeps <= Max(tryCount, 0) && r.attempts <= Max(tryCount, 0)
    ensures tryCount <= 0 ==> r == Run(Threw(TextAssertion(c.negative, c.text, None)), 0, 0)
  {
    ContainsTextFrom(c, observe, tryCount, 0, None)
  }

  /** The call returns at the first attempt whose condition holds, after as
      many sleeps as failed attempts before it and no further read. */
  lemma ContainsTextReturnsAtFirstSuccess(c: TextCheck, observe: nat -> Read, tryCount: int, k: nat)
    requires k < tryCount
    requires forall i :: 0 <= i < k ==> Rejects(c, observe(i))
    requires Accepts(c, observe(k))
    ensures TestElementContainsText(c, observe, tryCount) == Run(Returned, k + 1, k)
  {
  }

  /** When the condition never holds, the call reads exactly `tryCount`
      times, sleeps after each read, and throws the assertion error worded by
      `negative` with the last text read; with no budget it reads nothing. */
  lemma ContainsTextExhausts(c: TextCheck, observe: nat -> Read, tryCount: int)
    requires forall i :: 0 <= i < tryCount ==> Rejects(c, observe(i))
    ensures var n := Max(tryCount, 0);
      TestElementContainsText(c, observe, tryCount)
      == Run(Threw(TextAssertion(c.negative, c.text,
                                 if n == 0 then None else TextOf(observe(n - 1)))), n, n)
  {
    var r := TestElementContainsText(c, observe, tryCount);
    assert r.sleeps < tryCount ==> Rejects(c, observe(r.sleeps));
  }

  /** In "Normal" mode the condition is substring containment, so an empty
      text is found in every element. */
  lemma NormalModeIsContainment(c: TextCheck, observed: string)
    requires c.mode == Normal
    ensures Evaluate(c, observed) == Decided(IsSubstring(c.text, observed))
    ensures c.text == [] ==> Evaluate(c, observed) == Decided(true)
  {
    if c.text == [] {
      assert OccursAt(observed, c.text, 0);
    }
  }

  /** "Wildcard" mode is "RegularExpression" mode on the converted pattern:
      the pattern tested, and the one reported when it does not compile, is
      `convertWildcardToRegExp(text)`. */
  lemma WildcardIsRegExpOfConversion(c: TextCheck, observed: string)
    requires c.mode == Wildcard
    ensures Evaluate(c, observed)
            == Evaluate(TextCheck(c.re, RegularExpression, WildcardRegExp.ToRegExp(c.text), c.negative), observed)
  {
  }

  /** With a mode the `switch` does not know, `ok` stays `undefined` and the
      first successful read returns, whatever the text and either way
      `negative` is set. The test suite passes "Contain" or no mode at all,
      so its text assertions cannot fail on content. */
  lemma UnknownModeCannotFail(re: RegexEngine, name: Option<string>, text: string, negative: bool,
                              observe: nat -> Read, tryCount: int)
    requires name == Some("Contain") || name == None
    requires tryCount >= 1 && observe(0).Content?
    ensures TestElementContainsText(TextCheck(re, ModeOf(name), text, negative), observe, tryCount)
            == Run(Returned, 1, 0)
  {
    var c := TextCheck(re, ModeOf(name), text, negative);
    assert c.mode == Unrecognised;
    ContainsTextReturnsAtFirstSuccess(c, observe, tryCount, 0);
  }

  /** The defaults of the `negative` and `tryCount` parameters of the three
      assertions. */
  const DefaultNegative: bool := false
  const DefaultTryCount: int := 5

  /** The suite's call with text only, no mode, and the defaults for
      `negative` and `tryCount`: it returns on the first read that finds an
      element, whatever that element's text. */
  lemma SuiteTextCheckReturnsAtFirstRead(re: RegexEngine, text: string, observe: nat -> Read)
    requires observe(0).Content?
    ensures TestElementContainsText(TextCheck(re, ModeOf(None), text, DefaultNegative), observe, DefaultTryCount)
            == Run(Returned, 1, 0)
  {
    UnknownModeCannotFail(re, None, text, DefaultNegative, observe, DefaultTryCount);
  }

  /** Element text "foo", expected "bar", "Normal" mode, two tries: two reads,
      two sleeps, then the "not contain" error carrying "foo". */
  lemma ContainsTextTimeoutExample(re: RegexEngine)
    ensures TestElementContainsText(TextCheck(re, Normal, "bar", false), _ => Content("foo"), 2)
            == Run(Threw(TextAssertion(false, "bar", Some("foo"))), 2, 2)
  {
    var c := TextCheck(re, Normal, "bar", false);
    assert !IsSubstring("bar", "foo") by {
      forall k | 0 <= k <= 3 ensures !OccursAt("foo", "bar", k) {
        if k == 0 {
          assert "foo"[0..3][0] != "bar"[0];
        }
      }
    }
    NormalModeIsContainment(c, "foo");
    ContainsTextExhausts(c, _ => Content("foo"), 2);
  }

  // ---------------------------------------------------------------------
  // testSelectState
  // ---------------------------------------------------------------------

  /** What one `getSelectState` call yields: the values of the selected
      options, `null` when the element has no `selectedOptions`, or an
      exception because no element matches. */
  datatype SelectRead = Selected(values: seq<string>) | NoSelectedOptions | SelectMissing

  /** The exception the attempt that reads `r` throws, if any: the read's own
      or the failed `toEqual` against `expected`. */
  function SelectFailure(r: SelectRead, expected: seq<string>): (f: Option<Failure>)
    ensures f.None? <==> r == Selected(expected)
  {
    match r
    case Selected(v) => if v == expected then None else Some(SelectStateMismatch(Some(v)))
    case NoSelectedOptions => Some(SelectStateMismatch(None))
    case SelectMissing => Some(ElementNotFound)
  }

  /** The loop of `testSelectState` from attempt `errorCount`. Each failed
      attempt before the last consumed one unit of budget and slept; the
      call either returns at the first matching read, rethrows the
      `tryCount`-th failure without sleeping after it, or, with no budget at
      all, returns without reading. */
  function SelectStateFrom(observe: nat -> SelectRead, expected: seq<string>, tryCount: int,
                           errorCount: nat): (r: Run)
    ensures errorCount <= r.sleeps <= Max(tryCount - 1, errorCount)
    ensures forall i :: errorCount <= i < r.sleeps ==> SelectFailure(observe(i), expected).Some?
    ensures r.outcome.Returned? ==>
              || (r.attempts == r.sleeps == errorCount && tryCount <= errorCount)
              || (r.attempts == r.sleeps + 1 && observe(r.sleeps) == Selected(expected))
    ensures tryCount <= errorCount ==> r == Run(Returned, errorCount, errorCount)
    ensures errorCount < tryCount ==> r.attempts == r.sleeps + 1
    ensures r.outcome.Threw? ==>
              && r.attempts == r.sleeps + 1 && r.sleeps == tryCount - 1
              && SelectFailure(observe(r.sleeps), expected) == Some(r.outcome.failure)
    ensures !r.outcome.StillPolling?
    decreases tryCount - errorCount
  {
    if errorCount >= tryCount then Run(Returned, errorCount, errorCount)
    else match SelectFailure(observe(errorCount), expected)
      case None => Run(Returned, errorCount + 1, errorCount)
      case Some(f) =>
        if errorCount < tryCount - 1 then SelectStateFrom(observe, expected, tryCount, errorCount + 1)
        else Run(Threw(f), errorCount + 1, errorCount)
  }

  /** `testSelectState(selector, selectedValues, tryCount)`. */
  function TestSelectState(observe: nat -> SelectRead, expected: seq<string>, tryCount: int): (r: Run)
    ensures r.attempts <= Max(tryCount, 0) && r.sleeps < Max(tryCount, 1)
    ensures tryCount <= 0 ==> r == Run(Returned, 0, 0)
  {
    SelectStateFrom(observe, expected, tryCount, 0)
  }

  /** When every one of the `tryCount` attempts fails, the last failure is
      rethrown after `tryCount - 1` sleeps. */
  lemma SelectStateRethrowsLastFailure(observe: nat -> SelectRead, expected: seq<string>, tryCount: int)
    requires tryCount >= 1
    requires forall i :: 0 <= i < tryCount ==> SelectFailure(observe(i), expected).Some?
    ensures TestSelectState(observe, expected, tryCount)
            == Run(Threw(SelectFailure(observe(tryCount - 1), expected).value), tryCount, tryCount - 1)
  {
    var r := TestSelectState(observe, expected, tryCount);
    assert r.sleeps < tryCount ==> SelectFailure(observe(r.sleeps), expected).Some?;
  }

  /** The call returns at the first read that equals the expected values. */
  lemma SelectStateReturnsAtFirstMatch(observe: nat -> SelectRead, expected: seq<string>, tryCount: int, k: nat)
    requires k < tryCount
    requires forall i :: 0 <= i < k ==> SelectFailure(observe(i), expected).Some?
    requires observe(k) == Selected(expected)
    ensures TestSelectState(observe, expected, tryCount) == Run(Returned, k + 1, k)
  {
  }

  // ---------------------------------------------------------------------
  // testCheckState
  // ---------------------------------------------------------------------

  /** What one read of `elm.checked` yields (`None` is `undefined`, as for an
      element that is not a checkbox), or an exception because no element
      matches. */
  datatype CheckRead = Checked(value: Option<bool>) | CheckMissing

  /** Number of reads in `s` that threw. */
  function Misses(s: seq<CheckRead>): nat
  {
    if |s| == 0 then 0 else (if s[0] == CheckMissing then 1 else 0) + Misses(s[1..])
  }

  lemma MissesCons(s: seq<CheckRead>, k: nat)
    requires 1 <= k <= |s|
    ensures Misses(s[..k]) == (if s[0] == CheckMissing then 1 else 0) + Misses(s[1..][..k - 1])
  {
    assert s[..k][1..] == s[1..][..k - 1];
  }

  /** The loop of `testCheckState` over the remaining `script`, `errorCount`
      exceptions having been absorbed already; `attempts` counts reads of this
      script. Only exceptions consume budget and cause sleeps: a read that
      succeeds but differs from `state` retries at once. */
  function CheckStateLoop(script: seq<CheckRead>, state: bool, tryCount: int, errorCount: nat): (r: Run)
    ensures r.attempts <= |script|
    ensures forall i :: 0 <= i < r.attempts && script[i] == Checked(Some(state)) ==>
              r.outcome.Returned? && i == r.attempts - 1
    ensures r.outcome.Returned? ==>
              && Misses(script[..r.attempts]) == r.sleeps - errorCount
              && ((r.attempts == 0 && tryCount <= errorCount) || (r.attempts >= 1 && script[r.attempts - 1] == Checked(Some(state))))
              && (r.attempts >= 1 ==> r.sleeps < tryCount)
    ensures r.outcome.StillPolling? ==>
              && r.attempts == |script| && r.sleeps < tryCount
              && Misses(script) == r.sleeps - errorCount
    ensures r.outcome.Threw? ==>
              && r.outcome.failure == ElementNotFound
              && r.attempts >= 1 && script[r.attempts - 1] == CheckMissing
              && r.sleeps == tryCount - 1 && errorCount <= r.sleeps
              && Misses(script[..r.attempts]) == r.sleeps - errorCount + 1
    decreases |script|
  {
    if errorCount >= tryCount then Run(Returned, 0, errorCount)
    else if |script| == 0 then Run(StillPolling, 0, errorCount)
    else if script[0] == Checked(Some(state)) then Run(Returned, 1, errorCount)
    else if script[0] == CheckMissing && errorCount >= tryCount - 1 then
      Run(Threw(ElementNotFound), 1, errorCount)
    else
      // a mismatch retries at once; an absorbed exception costs one unit
      // of budget and one sleep
      var next := if script[0] == CheckMissing then errorCount + 1 else errorCount;
      var r := CheckStateLoop(script[1..], state, tryCount, next);
      MissesCons(script, r.attempts + 1);
      Run(r.outcome, r.attempts + 1, r.sleeps)
  }

  /** `testCheckState(selector, state, tryCount)` over a scripted sequence of
      reads. */
  function TestCheckState(script: seq<CheckRead>, state: bool, tryCount: int): (r: Run)
    ensures r.sleeps < Max(tryCount, 1) && r.attempts <= |script|
    ensures tryCount <= 0 ==> r == Run(Returned, 0, 0)
  {
    CheckStateLoop(script, state, tryCount, 0)
  }

  /** Reads that succeed but mismatch never consume the retry budget: with
      any positive budget the loop keeps reading without sleeping for as long
      as the page keeps answering so. */
  lemma {:induction false} MismatchesDoNotConsumeBudget(script: seq<CheckRead>, state: bool, tryCount: int,
                                                        errorCount: nat)
    requires errorCount < tryCount
    requires forall i :: 0 <= i < |script| ==> script[i].Checked? && script[i].value != Some(state)
    ensures CheckStateLoop(script, state, tryCount, errorCount) == Run(StillPolling, |script|, errorCount)
    decreases |script|
  {
    if |script| > 0 {
      MismatchesDoNotConsumeBudget(script[1..], state, tryCount, errorCount);
    }
  }

  /** Every call that throws has met exactly `tryCount` exceptions and slept
      after all but the last. */
  lemma CheckStateThrowsOnlyAtBudget(script: seq<CheckRead>, state: bool, tryCount: int)
    requires TestCheckState(script, state, tryCount).outcome.Threw?
    ensures var r := TestCheckState(script, state, tryCount);
      Misses(script[..r.attempts]) == tryCount && r.sleeps == tryCount - 1
  {
  }

  /** Exceptions on every one of the remaining `tryCount - errorCount` reads
      end the call with the last of them, after a sleep for each of the
      others. */
  lemma {:induction false} CheckStateRethrows(script: seq<CheckRead>, state: bool, tryCount: int,
                                              errorCount: nat)
    requires errorCount < tryCount <= errorCount + |script|
    requires forall i :: 0 <= i < tryCount - errorCount ==> script[i] == CheckMissing
    ensures CheckStateLoop(script, state, tryCount, errorCount)
            == Run(Threw(ElementNotFound), tryCount - errorCount, tryCount - 1)
    decreases |script|
  {
    if errorCount < tryCount - 1 {
      CheckStateRethrows(script[1..], state, tryCount, errorCount + 1);
    }
  }

  /** A script holding a thrown read at position `i` has a positive count. */
  lemma {:induction false} MissesPositive(s: seq<CheckRead>, i: nat)
    requires i < |s| && s[i] == CheckMissing
    ensures Misses(s) > 0
    decreases |s|
  {
    if i > 0 {
      MissesPositive(s[1..], i - 1);
    }
  }

  /** Exceptions spend the budget even when mismatching reads come between
      them: the read that brings the number of exceptions to
      `tryCount - errorCount`, with no matching read before it, ends the
      call with that exception. */
  lemma {:induction false} CheckStateThrowsWhenBudgetSpent(script: seq<CheckRead>, state: bool, tryCount: int,
                                                           errorCount: nat, k: nat)
    requires errorCount < tryCount && 1 <= k <= |script|
    requires script[k - 1] == CheckMissing && Misses(script[..k]) == tryCount - errorCount
    requires forall i :: 0 <= i < k ==> script[i] != Checked(Some(state))
    ensures CheckStateLoop(script, state, tryCount, errorCount) == Run(Threw(ElementNotFound), k, tryCount - 1)
    decreases k
  {
    MissesCons(script, k);
    var rest := script[1..];
    if k > 1 {
      var next := if script[0] == CheckMissing then errorCount + 1 else errorCount;
      assert rest[..k - 1][k - 2] == CheckMissing;
      MissesPositive(rest[..k - 1], k - 2);
      assert forall i :: 0 <= i < k - 1 ==> rest[i] == script[i + 1];
      CheckStateThrowsWhenBudgetSpent(rest, state, tryCount, next, k - 1);
    }
  }

  /** Two tries; an exception, a mismatch, then a second exception: the
      third read throws, after one sleep, though a matching read follows. */
  lemma CheckStateMixedExample()
    ensures TestCheckState([CheckMissing, Checked(Some(false)), CheckMissing, Checked(Some(true))], true, 2)
            == Run(Threw(ElementNotFound), 3, 1)
  {
    var script := [CheckMissing, Checked(Some(false)), CheckMissing, Checked(Some(true))];
    assert script[..3] == [CheckMissing] + [Checked(Some(false)), CheckMissing];
    assert Misses([CheckMissing]) == 1;
    assert Misses([Checked(Some(false)), CheckMissing]) == 1;
    assert Misses(script[..3]) == 2 by {
      MissesCons(script, 3);
      assert script[1..][..2] == [Checked(Some(false)), CheckMissing];
    }
    CheckStateThrowsWhenBudgetSpent(script, true, 2, 0, 3);
  }
}

=== FILE: select.dfy ===
/** `Page.select`: the loop over a `<select>` element's options that decides
    which of them to click.

    A click follows the Element Click command of the W3C WebDriver
    specification for an option: in a select that allows multiple selection
    it toggles the option's selectedness; otherwise it selects that option
    and deselects every other. The loop reads each option's text and state
    when it reaches it, so it sees the effect of earlier clicks. */
module SelectOptions {

  /** One `<option>`: its text and whether it is selected when the call
      starts. */
  datatype SelectOption = SelectOption(text: string, selected: bool)

  /** The `value` argument: a string, or an array of texts. */
  datatype SelectValue = Single(value: string) | Many(values: seq<string>)

  /** The selection after clicking option `i`. */
  function Click(state: seq<bool>, i: nat, multiple: bool): (s: seq<bool>)
    requires i < |state|
    ensures |s| == |state|
    ensures multiple ==> s[i] == !state[i] && forall j :: 0 <= j < |state| && j != i ==> s[j] == state[j]
    ensures !multiple ==> forall j :: 0 <= j < |state| ==> s[j] == (j == i)
  {
    if multiple then state[i := !state[i]] else seq(|state|, j => j == i)
  }

  /** The selectedness of every option before any click. */
  function InitialState(options: seq<SelectOption>): (s: seq<bool>)
    ensures |s| == |options| && forall j :: 0 <= j < |options| ==> s[j] == options[j].selected
  {
    seq(|options|, j requires 0 <= j < |options| => options[j].selected)
  }

  /** Option `k` is the last option before position `n` whose text is `v`. */
  predicate LastMatchBefore(options: seq<SelectOption>, v: string, k: int, n: int)
    requires n <= |options|
  {
    0 <= k < n && options[k].text == v && forall m :: k < m < n ==> options[m].text != v
  }

  /** The string branch of `select`: every option whose text equals `v` is
      clicked, whatever its state. In a multiple select that toggles each of
      them; otherwise the last of them ends up the only selected option, and
      with no such option nothing changes. */
  method SelectByText(options: seq<SelectOption>, multiple: bool, v: string)
    returns (clicked: seq<nat>, state: seq<bool>)
    ensures |state| == |options|
    ensures forall a, b :: 0 <= a < b < |clicked| ==> clicked[a] < clicked[b]
    ensures forall a :: 0 <= a < |clicked| ==> clicked[a] < |options|
    ensures forall j :: 0 <= j < |options| ==> (j in clicked <==> options[j].text == v)
    ensures multiple ==>
              forall j :: 0 <= j < |options| ==> state[j] == (options[j].selected != (options[j].text == v))
    ensures !multiple && (forall j :: 0 <= j < |options| ==> options[j].text != v) ==>
              state == InitialState(options)
    ensures !multiple ==> forall k :: LastMatchBefore(options, v, k, |options|) ==>
              forall j :: 0 <= j < |options| ==> state[j] == (j == k)
  {
    clicked := [];
    state := InitialState(options);
    ghost var last := -1;
    var i := 0;
    while i < |options|
      invariant 0 <= i <= |options| && |state| == |options|
      invariant forall a, b :: 0 <= a < b < |clicked| ==> clicked[a] < clicked[b]
      invariant forall a :: 0 <= a < |clicked| ==> clicked[a] < i
      invariant forall j :: 0 <= j < i ==> (j in clicked <==> options[j].text == v)
      invariant multiple ==> forall j :: 0 <= j < |options| ==>
                  state[j] == (options[j].selected != (j < i && options[j].text == v))
      invariant last == -1 ==> forall j :: 0 <= j < i ==> options[j].text != v
      invariant !multiple && last == -1 ==> state == InitialState(options)
      invariant last != -1 ==> LastMatchBefore(options, v, last, i)
      invariant !multiple && last != -1 ==> forall j :: 0 <= j < |options| ==> state[j] == (j == last)
    {
      if options[i].text == v {
        clicked := clicked + [i];
        state := Click(state, i, multiple);
        last := i;
      }
      i := i + 1;
    }
  }

  /** The array branch of `select`: an option is clicked exactly when its
      text's membership in `vs` differs from its current state. In a multiple
      select the selection afterwards is exactly the options whose text is in
      `vs`, and options neither requested nor selected are never touched. */
  method SelectByTexts(options: seq<SelectOption>, multiple: bool, vs: seq<string>)
    returns (clicked: seq<nat>, state: seq<bool>)
    ensures |state| == |options|
    ensures forall a, b :: 0 <= a < b < |clicked| ==> clicked[a] < clicked[b]
    ensures forall a :: 0 <= a < |clicked| ==> clicked[a] < |options|
    ensures multiple ==>
              forall j :: 0 <= j < |options| ==>
                && (j in clicked <==> (options[j].text in vs) != options[j].selected)
                && state[j] == (options[j].text in vs)
  {
    clicked := [];
    state := InitialState(options);
    var i := 0;
    while i < |options|
      invariant 0 <= i <= |options| && |state| == |options|
      invariant forall a, b :: 0 <= a < b < |clicked| ==> clicked[a] < clicked[b]
      invariant forall a :: 0 <= a < |clicked| ==> clicked[a] < i
      invariant multiple ==> forall j :: 0 <= j < i ==>
                  && (j in clicked <==> (options[j].text in vs) != options[j].selected)
                  && state[j] == (options[j].text in vs)
      invariant multiple ==> forall j :: i <= j < |options| ==> state[j] == options[j].selected
    {
      var selected := state[i];
      if options[i].text in vs {
        if !selected {
          clicked := clicked + [i];
          state := Click(state, i, multiple);
        }
      } else if selected {
        // clear an option that is selected but not requested
        clicked := clicked + [i];
        state := Click(state, i, multiple);
      }
      i := i + 1;
    }
  }

  /** `select(selector, value)`: returns the positions clicked, in order, and
      the selection afterwards. A string clicks every option of that text; an
      array leaves a multiple select with exactly the options whose text it
      lists selected. */
  method Select(options: seq<SelectOption>, multiple: bool, value: SelectValue)
    returns (clicked: seq<nat>, state: seq<bool>)
    ensures |state| == |options|
    ensures forall a :: 0 <= a < |clicked| ==> clicked[a] < |options|
    ensures value.Single? ==>
              forall j :: 0 <= j < |options| ==> (j in clicked <==> options[j].text == value.value)
    ensures value.Many? && multiple ==>
              forall j :: 0 <= j < |options| ==> state[j] == (options[j].text in value.values)
  {
    match value
    case Single(v) =>
      clicked, state := SelectByText(options, multiple, v);
    case Many(vs) =>
      clicked, state := SelectByTexts(options, multiple, vs);
  }
}

=== FILE: setup.dfy ===
/** `setup.js`: the two passes over the command-line arguments that set the
    `ENV` and `defBrowser` environment variables before the tests start.
    Loading `.env` afterwards is outside the model. */
module Setup {
  import opened Js

  /** The browsers the driver library names; `safari` is mapped to Firefox. */
  datatype Browser = Firefox | Chrome | Edge

  /** The driver library's name for each browser. */
  function BrowserName(b: Browser): (name: string)
  {
    match b
    case Firefox => "firefox"
    case Chrome => "chrome"
    case Edge => "MicrosoftEdge"
  }

  /** The two environment variables the script writes (`None` is unset). */
  datatype Environment = Environment(env: Option<string>, defBrowser: Option<string>)

  const EnvKey: string := "--ENV="
  const BrowserKey: string := "--defBrowser="

  /** The capture of `/^--ENV=(\w+)$/i` on `arg`: the key in any ASCII case,
      then one or more word characters up to the end, returned with their
      case preserved. */
  function MatchEnvArg(arg: string): (m: Option<string>)
    ensures m.Some? ==> |m.value| > 0 && |arg| == |EnvKey| + |m.value| && arg[|EnvKey|..] == m.value
  {
    if |arg| > |EnvKey| && EqualsIgnoreCase(arg[..|EnvKey|], EnvKey)
       && forall i :: |EnvKey| <= i < |arg| ==> IsWordChar(arg[i])
    then Some(arg[|EnvKey|..])
    else None
  }

  /** `arg` is the anchored key in some ASCII case followed by exactly one of
      the four browser names in some ASCII case; returns that name as written. */
  function MatchBrowserArg(arg: string): (m: Option<string>)
    ensures m.Some? ==> |arg| == |BrowserKey| + |m.value| && arg[|BrowserKey|..] == m.value
  {
    if |arg| > |BrowserKey| && EqualsIgnoreCase(arg[..|BrowserKey|], BrowserKey) then
      var name := arg[|BrowserKey|..];
      if EqualsIgnoreCase(name, "firefox") || EqualsIgnoreCase(name, "chrome")
         || EqualsIgnoreCase(name, "edge") || EqualsIgnoreCase(name, "safari")
      then Some(name) else None
    else None
  }

  /** The `switch` on the lower-cased capture: `chrome` and `edge` select
      their browser, everything else falls to the default, Firefox. */
  function BrowserOf(lowered: string): (b: Browser)
    ensures b == Chrome <==> lowered == "chrome"
    ensures b == Edge <==> lowered == "edge"
  {
    if lowered == "chrome" then Chrome
    else if lowered == "edge" then Edge
    else Firefox
  }

  /** The browser one argument selects, if it matches at all. */
  function BrowserArg(arg: string): (b: Option<Browser>)
  {
    match MatchBrowserArg(arg)
    case Some(name) => Some(BrowserOf(LowerAscii(name)))
    case None => None
  }

  /** The first loop, from the argument list's start: each matching argument
      overwrites `ENV`. */
  function EnvFold(argv: seq<string>, env: Option<string>): (r: Option<string>)
    ensures r == env || exists i :: 0 <= i < |argv| && r == MatchEnvArg(argv[i])
  {
    if |argv| == 0 then env
    else
      var next := match MatchEnvArg(argv[0]) case Some(w) => Some(w) case None => env;
      EnvFold(argv[1..], next)
  }

  /** The second loop, from the argument list's start: each matching argument
      overwrites `defBrowser`. */
  function BrowserFold(argv: seq<string>, b: Browser): (r: Browser)
    ensures r == b || exists i :: 0 <= i < |argv| && BrowserArg(argv[i]) == Some(r)
  {
    if |argv| == 0 then b
    else
      var next := match BrowserArg(argv[0]) case Some(c) => c case None => b;
      BrowserFold(argv[1..], next)
  }

  /** The whole script: `defBrowser` starts as Firefox whatever it was, then
      both loops run over the arguments. */
  function SetupEnvironment(argv: seq<string>, prior: Environment): (e: Environment)
    ensures e.defBrowser == Some("firefox") || e.defBrowser == Some("chrome") || e.defBrowser == Some("MicrosoftEdge")
    ensures e.env == prior.env || exists i :: 0 <= i < |argv| && e.env == MatchEnvArg(argv[i])
    ensures |argv| == 0 ==> e == Environment(prior.env, Some("firefox"))
  {
    Environment(EnvFold(argv, prior.env), Some(BrowserName(BrowserFold(argv, Firefox))))
  }

  /** Without a matching argument, `ENV` is left as it was. */
  lemma {:induction false} EnvUnchangedWithoutMatch(argv: seq<string>, env: Option<string>)
    requires forall j :: 0 <= j < |argv| ==> MatchEnvArg(argv[j]).None?
    ensures EnvFold(argv, env) == env
  {
    if |argv| > 0 {
      EnvUnchangedWithoutMatch(argv[1..], env);
    }
  }

  /** The last argument of the `--ENV=` form decides `ENV`. */
  lemma {:induction false} EnvLastMatchWins(argv: seq<string>, env: Option<string>, i: nat)
    requires i < |argv| && MatchEnvArg(argv[i]).Some?
    requires forall j :: i < j < |argv| ==> MatchEnvArg(argv[j]).None?
    ensures EnvFold(argv, env) == MatchEnvArg(argv[i])
  {
    if i == 0 {
      EnvUnchangedWithoutMatch(argv[1..], MatchEnvArg(argv[0]));
    } else {
      var next := match MatchEnvArg(argv[0]) case Some(w) => Some(w) case None => env;
      EnvLastMatchWins(argv[1..], next, i - 1);
    }
  }

  /** Without a matching argument the browser is left as it was. */
  lemma {:induction false} BrowserUnchangedWithoutMatch(argv: seq<string>, b: Browser)
    requires forall j :: 0 <= j < |argv| ==> BrowserArg(argv[j]).None?
    ensures BrowserFold(argv, b) == b
  {
    if |argv| > 0 {
      BrowserUnchangedWithoutMatch(argv[1..], b);
    }
  }

  /** The last argument of the `--defBrowser=` form decides the browser. */
  lemma {:induction false} BrowserLastMatchWins(argv: seq<string>, b: Browser, i: nat)
    requires i < |argv| && BrowserArg(argv[i]).Some?
    requires forall j :: i < j < |argv| ==> BrowserArg(argv[j]).None?
    ensures BrowserFold(argv, b) == BrowserArg(argv[i]).value
  {
    if i == 0 {
      BrowserUnchangedWithoutMatch(argv[1..], BrowserArg(argv[0]).value);
    } else {
      var next := match BrowserArg(argv[0]) case Some(c) => c case None => b;
      BrowserLastMatchWins(argv[1..], next, i - 1);
    }
  }

  /** The script's result: `ENV` is the suffix of the last `--ENV=` argument
      or stays as it was; `defBrowser` is that of the last `--defBrowser=`
      argument, and Firefox when there is none, whatever it was before. */
  lemma SetupLastArgumentWins(argv: seq<string>, prior: Environment)
    ensures var r := SetupEnvironment(argv, prior);
      && ((forall j :: 0 <= j < |argv| ==> MatchEnvArg(argv[j]).None?) ==> r.env == prior.env)
      && (forall i :: 0 <= i < |argv| && MatchEnvArg(argv[i]).Some?
            && (forall j :: i < j < |argv| ==> MatchEnvArg(argv[j]).None?)
            ==> r.env == MatchEnvArg(argv[i]))
      && ((forall j :: 0 <= j < |argv| ==> BrowserArg(argv[j]).None?) ==> r.defBrowser == Some("firefox"))
      && (forall i :: 0 <= i < |argv| && BrowserArg(argv[i]).Some?
            && (forall j :: i < j < |argv| ==> BrowserArg(argv[j]).None?)
            ==> r.defBrowser == Some(BrowserName(BrowserArg(argv[i]).value)))
  {
    if forall j :: 0 <= j < |argv| ==> MatchEnvArg(argv[j]).None? {
      EnvUnchangedWithoutMatch(argv, prior.env);
    }
    forall i | 0 <= i < |argv| && MatchEnvArg(argv[i]).Some?
               && (forall j :: i < j < |argv| ==> MatchEnvArg(argv[j]).None?)
      ensures EnvFold(argv, prior.env) == MatchEnvArg(argv[i])
    {
      EnvLastMatchWins(argv, prior.env, i);
    }
    if forall j :: 0 <= j < |argv| ==> BrowserArg(argv[j]).None? {
      BrowserUnchangedWithoutMatch(argv, Firefox);
    }
    forall i | 0 <= i < |argv| && BrowserArg(argv[i]).Some?
               && (forall j :: i < j < |argv| ==> BrowserArg(argv[j]).None?)
      ensures BrowserFold(argv, Firefox) == BrowserArg(argv[i]).value
    {
      BrowserLastMatchWins(argv, Firefox, i);
    }
  }

  /** Lower-casing agrees with comparison up to ASCII case. */
  lemma LowerAsciiIgnoresCase(a: string, b: string)
    requires EqualsIgnoreCase(a, b)
    ensures LowerAscii(a) == LowerAscii(b)
  {
  }

  /** Key and name both match in any ASCII case, the value after the key is
      taken whole, and the names map as the `switch` says: `chrome` and `edge`
      to their browsers, `firefox` and `safari` to Firefox. */
  lemma BrowserArgCaseInsensitive(key: string, name: string)
    requires EqualsIgnoreCase(key, BrowserKey)
    ensures EqualsIgnoreCase(name, "chrome") ==> BrowserArg(key + name) == Some(Chrome)
    ensures EqualsIgnoreCase(name, "edge") ==> BrowserArg(key + name) == Some(Edge)
    ensures EqualsIgnoreCase(name, "firefox") || EqualsIgnoreCase(name, "safari") ==>
              BrowserArg(key + name) == Some(Firefox)
    ensures BrowserArg(key + name).Some? <==>
              EqualsIgnoreCase(name, "firefox") || EqualsIgnoreCase(name, "chrome")
              || EqualsIgnoreCase(name, "edge") || EqualsIgnoreCase(name, "safari")
  {
    var arg := key + name;
    assert arg[..|BrowserKey|] == key;
    assert arg[|BrowserKey|..] == name;
    if EqualsIgnoreCase(name, "chrome") {
      assert AsciiLower(name[0]) == 'c';
      LowerAsciiIgnoresCase(name, "chrome");
    } else if EqualsIgnoreCase(name, "edge") {
      LowerAsciiIgnoresCase(name, "edge");
    } else if EqualsIgnoreCase(name, "firefox") {
      LowerAsciiIgnoresCase(name, "firefox");
    } else if EqualsIgnoreCase(name, "safari") {
      LowerAsciiIgnoresCase(name, "safari");
    }
  }

  /** A key in any ASCII case followed by word characters sets `ENV` to
      those characters exactly as written. */
  lemma EnvArgKeepsCase(key: string, value: string)
    requires EqualsIgnoreCase(key, EnvKey)
    requires |value| > 0 && forall i :: 0 <= i < |value| ==> IsWordChar(value[i])
    ensures MatchEnvArg(key + value) == Some(value)
  {
    var arg := key + value;
    assert arg[..|EnvKey|] == key;
    assert arg[|EnvKey|..] == value;
    assert forall i :: |EnvKey| <= i < |arg| ==> arg[i] == value[i - |EnvKey|];
  }

  /** The patterns are anchored at both ends: a longer name or a trailing
      character does not match, while the key and name may be in any case. */
  lemma AnchoredExamples()
    ensures BrowserArg("--defBrowser=chromium").None?
    ensures BrowserArg("--defBrowser=opera").None?
    ensures MatchEnvArg("--ENV=qa-1").None?
  {
    assert !IsWordChar("--ENV=qa-1"[8]);
  }
}

=== FILE: wildcard.dfy ===
/** `convertWildcardToRegExp`: the per-character rewrite that turns the
    pattern of the "Wildcard" assertion mode into a regular-expression source.

    The rewrite for `.` is the JavaScript literal `'\.'`, which is an identity
    escape: it denotes the one-character string ".". So a dot is copied, not
    escaped, and only `*` and `?` change the text. */
module WildcardRegExp {

  /** What one wildcard character becomes. */
  function CharImage(c: char): (img: string)
  {
    if c == '*' then ".*"
    else if c == '?' then ".?"
    else if c == '.' then "."  // the JavaScript string '\.' is "."
    else [c]
  }

  /** Number of occurrences of `c` in `s`. */
  function Count(s: string, c: char): (n: nat)
  {
    if |s| == 0 then 0
    else Count(s[..|s| - 1], c) + (if s[|s| - 1] == c then 1 else 0)
  }

  /** `s` contains neither `*` nor `?`. */
  predicate Plain(s: string)
  {
    forall i :: 0 <= i < |s| ==> s[i] != '*' && s[i] != '?'
  }

  /** The converted pattern, read as the concatenation of the images of the
      characters taken left to right. Each `*` and `?` adds one character, and
      a pattern without them comes back unchanged. */
  function ToRegExp(w: string): (r: string)
    ensures |r| == |w| + Count(w, '*') + Count(w, '?')
    ensures Plain(w) ==> r == w
  {
    if |w| == 0 then ""
    else
      var init := w[..|w| - 1];
      assert Plain(w) ==> Plain(init) by {
        if Plain(w) {
          forall i | 0 <= i < |init| ensures init[i] != '*' && init[i] != '?' {
            assert init[i] == w[i];
          }
        }
      }
      ToRegExp(init) + CharImage(w[|w| - 1])
  }

  /** The source's loop: appends the image of each character in turn. */
  method ConvertWildcardToRegExp(wildcard: string) returns (result: string)
    ensures result == ToRegExp(wildcard)
  {
    result := "";
    var i := 0;
    while i < |wildcard|
      invariant 0 <= i <= |wildcard|
      invariant result == ToRegExp(wildcard[..i])
    {
      var c := wildcard[i];
      if c == '*' {
        result := result + ".*";
      } else if c == '?' {
        result := result + ".?";
      } else if c == '.' {
        result := result + ".";
      } else {
        result := result + [c];
      }
      assert wildcard[..i + 1][..i] == wildcard[..i];
      i := i + 1;
    }
    assert wildcard[..i] == wildcard;
  }

  /** The conversion is a homomorphism on concatenation. */
  lemma {:induction false} ToRegExpAppend(a: string, b: string)
    ensures ToRegExp(a + b) == ToRegExp(a) + ToRegExp(b)
    decreases |b|
  {
    if |b| == 0 {
      assert a + b == a;
    } else {
      var b' := b[..|b| - 1];
      assert (a + b)[..|a + b| - 1] == a + b';
      assert (a + b)[|a + b| - 1] == b[|b| - 1];
      ToRegExpAppend(a, b');
    }
  }

  /** The conversion of a single character is its image. */
  lemma ToRegExpChar(c: char)
    ensures ToRegExp([c]) == CharImage(c)
  {
    assert [c][..0] == [];
  }

  /** Every character lands, as its image, right after the images of the
      characters before it: the conversion preserves order and copies every
      character other than `*` and `?` verbatim. */
  lemma ToRegExpLocal(w: string, i: nat)
    requires i < |w|
    ensures var off := |ToRegExp(w[..i])|;
      && off + |CharImage(w[i])| <= |ToRegExp(w)|
      && ToRegExp(w)[off..off + |CharImage(w[i])|] == CharImage(w[i])
      && (w[i] != '*' && w[i] != '?' ==> ToRegExp(w)[off] == w[i])
  {
    ImageAt(w, i);
    InfixOfConcat(ToRegExp(w[..i]), CharImage(w[i]), ToRegExp(w[i + 1..]));
  }

  /** The conversion of `w` split around position `i`. */
  lemma ImageAt(w: string, i: nat)
    requires i < |w|
    ensures ToRegExp(w) == ToRegExp(w[..i]) + (CharImage(w[i]) + ToRegExp(w[i + 1..]))
  {
    SplitAt(w, i);
    ImageInContext(w[..i], w[i], w[i + 1..]);
  }

  /** A text is its prefix, the character at the cut, and the rest. */
  lemma SplitAt(w: string, i: nat)
    requires i < |w|
    ensures w == w[..i] + ([w[i]] + w[i + 1..])
  {
  }

  /** The image of a character between two texts follows the image of the
      first text. */
  lemma ImageInContext(pre: string, c: char, post: string)
    ensures var x, y := ToRegExp(pre), CharImage(c);
      ToRegExp(pre + ([c] + post)) == x + (y + ToRegExp(post))
  {
    ToRegExpAppend(pre, [c] + post);
    ToRegExpAppend([c], post);
    ToRegExpChar(c);
  }

  /** The middle part of a three-way concatenation sits right after the first. */
  lemma InfixOfConcat(x: string, y: string, z: string)
    ensures (x + (y + z))[|x|..|x| + |y|] == y
    ensures |y| > 0 ==> (x + (y + z))[|x|] == y[0]
  {
  }

  /** A position holding `c` contributes one to the count of `c`. */
  lemma {:induction false} CountPositive(s: string, c: char, i: nat)
    requires i < |s| && s[i] == c
    ensures Count(s, c) > 0
    decreases |s|
  {
    if i < |s| - 1 {
      CountPositive(s[..|s| - 1], c, i);
    }
  }

  /** The conversion leaves a pattern unchanged exactly when it has no `*`
      and no `?`; in particular dots are never escaped. */
  lemma {:induction false} ToRegExpIdentityIff(w: string)
    ensures ToRegExp(w) == w <==> Plain(w)
  {
    if !Plain(w) {
      var i :| 0 <= i < |w| && (w[i] == '*' || w[i] == '?');
      if w[i] == '*' { CountPositive(w, '*', i); } else { CountPositive(w, '?', i); }
    }
  }

  /** The dot is not escaped: "a.b" converts to itself, so in the regular
      expression it yields `.` stands for any character except a line
      terminator. */
  lemma DotIsNotEscaped()
    ensures ToRegExp("a.b") == "a.b"
  {
    assert Plain("a.b") by {
      assert "a.b"[0] == 'a' && "a.b"[1] == '.' && "a.b"[2] == 'b';
    }
  }

  /** The example pattern "a*b?c" becomes "a.*b.?c". */
  lemma StarAndQuestionExample()
    ensures ToRegExp("a*b?c") == "a.*b.?c"
  {
    var w := "a*b?c";
    assert w[..4] == "a*b?" && w[4] == 'c';
    assert w[..4][..3] == "a*b" && w[3] == '?';
    assert w[..3][..2] == "a*" && w[2] == 'b';
    assert w[..2][..1] == "a" && w[1] == '*';
    assert ToRegExp("a") == "a";
    assert ToRegExp("a*") == "a.*";
    assert ToRegExp("a*b") == "a.*b";
    assert ToRegExp("a*b?") == "a.*b.?";
  }
}
